=== FILE: README.md ===
# elasticmsd — a Dafny model of the MSD-to-Elasticsearch loader

The loader reads per-track metadata from the Million Song Dataset (either
the one summary file or a directory tree of one-track `.h5` files) and
loads it into an Elasticsearch index. This project models the logic that
surrounds the two libraries the loader drives: the HDF5 getters module and
the Elasticsearch client.

- `common.dfy` (`Common`): `Result`, the `Verdict` of a guard (carry on, or
  `sys.exit(1)`), and the `startswith`/`endswith` string predicates.
- `values.dfy` (`Values`): the values getters return, and
  `Ingestor.convert_type`.
- `fields.dfy` (`Fields`): the allow-list `msd_fields`, the getter filter
  (`split('get_')[-1]`), the `msd_` key prefix, and the assembly of one
  track's document with its per-field `AttributeError` handling.
- `batching.dfy` (`Batching`): the batching loop of `Ingestor.ingest`. It
  has a reference definition (`Run`), an imperative loop (`SubmitInBatches`)
  proved equal to it, and lemmas on sizes, partition, coverage and
  last-write-wins.
- `bulk.dfy` (`Bulk`): `Eshelper.check_host_reachable`,
  `Eshelper.check_index_safe`, and the body and calls of
  `Eshelper.ingest_to_es`.
- `sources.dfy` (`Sources`): the summary and directory record sources:
  `load`, `check` and `get_track`.
- `ingestor.dfy` (`Ingestor`): the whole of `Ingestor.ingest`. It turns
  tracks into documents and documents into batches, and it covers the
  `ValueError` path that ends the run part-way through.

The class `TrackGenerator` in msd_to_es.py (lines 85-119) is a separate
class from `TrackGeneratorFromSummary` in track_generator.py. Its methods have
other names (`load_from_summary` and `check_msd_summary_file_exists_or_abort`
against `load` and `check`). It calls the `logging` module functions where
track_generator.py calls log.py's `logger`; both log to the root logger. It
behaves the same. `Sources.SummarySource` models both.

The source is Python 2. `filter` returns a list, so the getter list can be
used once per track. Dictionaries have no defined order, so the order in
which `ingest_to_es` walks a batch is an input: a sequence that lists each
key exactly once.

Notes on the code's behaviour:
- A batch is a dictionary keyed by track id. A repeated id overwrites the
  earlier document and does not add to the batch size.
- The directory source yields row index 0 for every file, because `sng_idx`
  is set once and never incremented.
- Getters are chosen by the text after their last `get_`. So a module name
  without `get_` whose whole text is an allow-listed field is selected too.
- `convert_type` looks only at the class name of the value itself. A numpy
  scalar of a dtype other than int32 or float64 (int64, float32, bool_, ...)
  is returned unchanged at the top level; inside a one-dimensional array,
  `tolist` turns every cell into a Python value.

## Model

| member | source | states |
|---|---|---|
| Values.ConvertType | msd_to_es.py:169-187 | Fails exactly on an ndarray of more than one dimension. On success the result is never an ndarray or a numpy int32 or float64, and it denotes the same content as the input. A numpy int32 becomes the Python int and a float64 the Python float with the same value. The input comes back unchanged exactly when it is not one of those three, so a second conversion changes nothing. A 1-D array becomes a list of the same length whose cells are the array's cells as `tolist` returns them, in order |
| Values.Native | msd_to_es.py:179 | `tolist` turns one array cell of any numpy dtype into a Python value with the same content, so no numpy scalar is left. A cell that is not a numpy scalar is left alone |
| Values.FromPlain | msd_to_es.py:179 | The Python value built for a content denotes exactly that content and is neither a numpy scalar nor an array. This is what a numpy scalar of another dtype becomes under `tolist` |
| Values.ToList | msd_to_es.py:179 | Reference definition of `ndarray.tolist()` for one dimension: same length, and every cell keeps its content and is no longer a numpy scalar. `ConvertType` and `ConvertPlainArray` build on it |
| Values.ConvertPlainArray | msd_to_es.py:176-179 | A one-dimensional array none of whose cells is a numpy scalar becomes the list of exactly those cells, in the same order |
| Fields.SeparatorEndsAtPrefix | msd_to_es.py:139 | The character test the split scans with holds at position `j` exactly when the four characters ending there are the separator `get_` |
| Fields.LastPiece | msd_to_es.py:139 | Reference definition of `s.split("get_")[-1]`, scanning from the right. Its own contract only bounds the length; `LastPieceIsSuffix`, `LastPieceHasNoSeparator` and `LastPieceFollowsSeparator` characterise it as the text after the last `get_` |
| Fields.FieldName | msd_to_es.py:139 | The field name a getter serves, `getter.split("get_")[-1]`. `FieldNameOfGetter` shows that it recovers `f` from `get_f`, and `AllowListedGettersSelected` applies that to every allow-listed field |
| Fields.Key | msd_to_es.py:140 | The document key `"msd_" + field_name`. `AllowListedGettersSelected` shows that `get_f` is stored under `msd_f`, and `DocKeysAllowListed` that every document key has this form |
| Fields.LastPieceIsSuffix | msd_to_es.py:43 | `name.split('get_')[-1]` is a suffix of the name |
| Fields.LastPieceHasNoSeparator | msd_to_es.py:43 | That suffix never contains `get_` |
| Fields.LastPieceFollowsSeparator | msd_to_es.py:139 | That suffix is the whole name or directly follows a `get_`. With the two lemmas above, this pins it down as the text after the last `get_` |
| Fields.FieldNameOfGetter | msd_to_es.py:139 | The field name of `p + "get_" + f` is `f` for any separator-free `f` (the inverse of naming a getter) |
| Fields.AllowListedGettersSelected | msd_to_es.py:41-43 | For every allow-listed field `f`, the getter `get_f` passes the filter and stores under the key `msd_f` |
| Fields.SelectGetters | msd_to_es.py:43 | A name is kept exactly when it is among the module's names and its field part is allow-listed |
| Fields.SelectGettersAppend | msd_to_es.py:43 | `filter` keeps the module's order and multiplicity: selecting from `a + b` is selecting from `a`, then from `b`. With the membership clause of `SelectGetters` this fixes the list exactly, which matters when two selected names share a field part and `BuildDoc` keeps the later value |
| Fields.BuildDoc | msd_to_es.py:137-150 | Reference definition of one track's document. Its contract: every stored value is one `convert_type` would hand back unchanged: no ndarray, numpy int32 or float64 is left, though a numpy scalar of another dtype may be. `BuildDocFailsIff`, `BuildDocKeys` and `BuildDocFields` state what it holds |
| Fields.BuildDocFailsIff | msd_to_es.py:141-150 | A track's document fails exactly when one of its getters returned an array that `convert_type` rejects |
| Fields.BuildDocKeys | msd_to_es.py:137-150 | The document's keys are exactly the keys of the getters that did not raise AttributeError |
| Fields.BuildDocFields | msd_to_es.py:141-150 | With one getter per field, a getter raising AttributeError leaves out only its own key. Every other getter's converted value is stored under its own key |
| Fields.DocKeysAllowListed | msd_to_es.py:139-140 | When every getter passes the filter, every key of the assembled document is `msd_` followed by an allow-listed field |
| Batching.MapOf | msd_to_es.py:152 | The batch dictionary never has more keys than assignments, and is empty exactly when nothing was assigned |
| Batching.MapOfKeys | msd_to_es.py:152 | The batch holds exactly the ids assigned to it |
| Batching.MapOfLastWins | msd_to_es.py:152 | A repeated id keeps the document of its last assignment |
| Batching.MapOfValues | msd_to_es.py:152 | Every stored document is the document of some assignment with that id |
| Batching.MapOfDistinctSize | msd_to_es.py:152 | Without repeated ids, every assignment adds one key |
| Batching.Run | msd_to_es.py:152-164 | Reference definition of the batching loop as a list of flushes, each an in-loop or a final one. Its contract: at most one flush more than entries. `RunPartitions`, `RunSizes`, `RunTotalSize` and `RunOccurrences` state what it submits |
| Batching.RunPartitions | msd_to_es.py:133-164 | The submitted batches come from consecutive segments of the input that together are the whole input, in order |
| Batching.RunSizes | msd_to_es.py:155-164 | Starting from a batch below the bulk size, every batch flushed in the loop has exactly the bulk size. The final flush, if any, is the last one and holds between 1 and bulk size - 1 documents |
| Batching.RunTotalSize | msd_to_es.py:133-164 | Without repeated ids, the submitted sizes add up to the number of tracks |
| Batching.RunOccurrences | msd_to_es.py:133-164 | Without repeated ids, every id seen is in exactly one submitted batch, and no other id is in any |
| Batching.SubmitInBatches | msd_to_es.py:127-165 | The loop, with the batch size kept below `es_bulk_size` at the top of every iteration, submits exactly the batches of the reference definition, in order |
| Batching.SubmittedSizes | msd_to_es.py:155-164 | Every submitted batch except the last has `es_bulk_size` documents, and the last has between 1 and `es_bulk_size` |
| Batching.ThreeTracksTwoBatches | msd_to_es.py:152-164 | Three tracks with bulk size 2 give two submissions, `{a, b}` in the loop and `{c}` at the end |
| Bulk.CheckHostReachable | msd_to_es.py:66-73 | The run carries on exactly when the ping answers true. A false answer and a connection error both abort |
| Bulk.CheckIndexSafe | msd_to_es.py:75-82 | Aborts exactly when the index exists and `force` is off |
| Bulk.Preflight | msd_to_es.py:203-204 | The script goes on to read tracks exactly when the ping answers true and the index is absent or `force` is set. An existing index without `force` stops it before any record is read |
| Bulk.BulkLines | msd_to_es.py:57-60 | Two lines per document in iteration order: the `index` action carrying the id, then that id's document |
| Bulk.Render | msd_to_es.py:56-60 | Reference definition of the body string: each line serialised and followed by a newline. `RenderTerminated` and `SplitRender` state its properties |
| Bulk.RenderTerminated | msd_to_es.py:56-62 | The body is empty exactly when there is no line, so the `bulk_data != ""` test is a test for an empty batch. Otherwise the body ends with a newline |
| Bulk.SplitRender | msd_to_es.py:58-60 | With a single-line serialiser, cutting the body at its newlines gives back each serialised line in order (a round trip) |
| Bulk.IngestToEs | msd_to_es.py:55-64 | No call at all for an empty batch. Otherwise exactly one bulk write of the rendered body to the index, then one flush of that index |
| Bulk.BulkBodyShape | msd_to_es.py:55-64 | A non-empty submission's body splits into exactly 2·n lines for n documents: the action for `order[i]`, then its document |
| Sources.SummaryCheck | track_generator.py:32-36 | Aborts exactly when the summary file does not exist |
| Sources.LoadSummary | track_generator.py:24-30 | Aborts exactly when the file is missing. Otherwise the source holds the path, the handle opened on it and the reported song count |
| Sources.SummaryTracks | track_generator.py:38-40 | Yields max(0, num_songs) pairs: the pair at position i has index i, every pair carries the one summary handle, and an unloaded source yields nothing |
| Sources.DirectoryCheck | track_generator.py:64-69 | Aborts exactly when the path does not exist or is not a directory |
| Sources.LoadDirectory | track_generator.py:60-62 | Aborts exactly when the check aborts, else records the directory |
| Sources.Join | track_generator.py:76 | POSIX `os.path.join`: a relative file name lands under the directory. `JoinEndsWithName` gives the other half |
| Sources.JoinEndsWithName | track_generator.py:75-76 | The joined path ends with the file name, and so keeps its `.h5` extension |
| Sources.H5Names | track_generator.py:74-78 | Reference definition of the paths yielded for one directory. Its contract: no more paths than file names, and every path ends in `.h5`. `H5NamesMembers` says which paths |
| Sources.H5Files | track_generator.py:73-78 | Reference definition of the paths yielded for a whole walk. Every path ends in `.h5`. `H5FilesAppend` and `DirectoryTracks` give the order |
| Sources.H5NamesMembers | track_generator.py:75-76 | A path is yielded for a directory exactly when it joins the directory with one of its file names ending in `.h5`. Every other name is skipped |
| Sources.H5FilesAppend | track_generator.py:73-78 | Walking two parts of a tree one after the other yields their files one after the other (walk order is kept) |
| Sources.DirectoryTracks | track_generator.py:71-78 | One track per `.h5` file, in walk order, each with the handle opened on that file and index 0 |
| Sources.OnlyH5FilesYielded | track_generator.py:75-78 | A tree with `A/A/A/TR1.h5` and `A/A/B/TR2.bin` yields `A/A/A/TR1.h5` only |
| Ingestor.Prepare | msd_to_es.py:133-152 | Never more documents than tracks, and one document per track when no track fails |
| Ingestor.PrepareSpec | msd_to_es.py:133-152 | Preparation fails exactly when some track's document fails. Entry i holds track i's id and its assembled document, for every entry prepared |
| Ingestor.PrepareStopsAtFailure | msd_to_es.py:133-150 | When preparation fails, it stops at a track whose document failed and the entries are those of the tracks before it. With `PrepareSpec`, the crash happens at the first failing track |
| Ingestor.Ingest | msd_to_es.py:127-166 | Reference definition of a whole run: a crash keeps only the in-loop submissions. Its contract: at most one submission more than tracks. `CrashesIff`, `CrashedBatchesFull`, `CompletedCoversAll`, `ScriptBatchSizes` and the `Submitted…` lemmas state what it submits |
| Ingestor.CrashesIff | msd_to_es.py:141-150 | A run ends with the uncaught ValueError exactly when some track carries an array of more than one dimension |
| Ingestor.CrashedBatchesFull | msd_to_es.py:154-164 | After such a crash only full batches were submitted. The partial batch never reaches the service |
| Ingestor.ScriptBatchSizes | msd_to_es.py:155-164 | With the script's `es_bulk_size` of 1000, no submission holds more than 1000 documents, every one but the last holds exactly 1000, and after a crash every one holds exactly 1000 |
| Ingestor.CompletedCoversAll | msd_to_es.py:133-164 | A completed run over tracks with different ids submits each track's id in exactly one of the submitted dictionaries, and their sizes add up to the number of tracks |
| Ingestor.SubmittedDocFromTrack | msd_to_es.py:133-158 | Every document submitted, on either path, is the document assembled for one of the tracks |
| Ingestor.SubmittedKeysAllowListed | msd_to_es.py:137-152 | Every key of every submitted document, on either path, is `msd_` followed by an allow-listed field |

## Left out

- The HDF5 getters module: opening files, `get_num_songs`, `get_track_id` and the field getters are external. The model takes them as inputs: the song count, the `Reader` accessor functions (a value or `AttributeError` per getter), and the module's names in module order.
- The Elasticsearch client (`ping`, `indices.exists`, `bulk`, `indices.flush`): network I/O. Answers come in as inputs and calls go out as `EsCall` values. A failing bulk write is not modelled, because the code does not handle it.
- `json.dumps`: a library serialiser, kept as an abstract `encode` function. The body lemmas assume it emits no raw newline, as the default `json.dumps` does.
- `encode` is total. `json.dumps` raises TypeError on a numpy scalar such as float32 or bool_, which `convert_type` passes through at the top level, so a document holding one would stop the run at the bulk write. That failure is not modelled.
- `os.walk`, `os.path.exists` and `os.path.isdir`: filesystem I/O. The listing and the flags are inputs.
- `sys.exit`: modelled as an `Abort` verdict or an `Aborted` load, not as process termination.
- Handle lifetime and `close()`, including the directory source's `close()`, which dereferences a handle that this variant never sets. This is resource handling, not data flow.
- Laziness of the generators: `get_track` is modelled as the whole sequence it would yield.
- Logging, argparse and the `__main__` blocks, apart from the order of the two guards (`Bulk.Preflight`): configuration and I/O only. This includes the second summary check in msd_to_es.py.
- Numeric conversion: numpy payloads are kept as exact contents and only the type changes. No floating-point arithmetic or dtype width is modelled. A numpy scalar other than int32 and float64 carries the content of the Python value it converts to, without its dtype name.
- The converter's dispatch on the class name is modelled by datatype constructors. A foreign class that happens to be named `int32`, `float64` or `ndarray` is not modelled.
- Zero-dimensional arrays cannot be represented (`Rank` is at least 1). None of the allow-listed getters returns one.
- Exceptions other than `AttributeError` from a getter, and failures of `get_track_id`, are not modelled.
- Fields.LastPiece: its own contract only bounds the length. The characterisation is stated in the three `LastPiece…` lemmas.

=== FILE: batching.dfy ===
/** The batching loop of `Ingestor.ingest`: documents keyed by track id are
    collected into a dictionary that is submitted whenever it holds exactly
    `es_bulk_size` entries, and once more at the end if anything is left. */
module Batching {

  /** `es_bulk_size`: the number of documents per bulk submission. */
  const EsBulkSize: nat := 1000

  /** One (track id, document) pair as the loop receives it. */
  datatype Entry<D> = Entry(id: string, doc: D)

  /** The dictionary built by assigning `batch[e.id] = e.doc` for every entry
      in order: a later entry overwrites an earlier one with the same id. */
  function MapOf<D>(s: seq<Entry<D>>): (m: map<string, D>)
    ensures |m| <= |s|
    ensures |m| == 0 <==> |s| == 0
  {
    if |s| == 0 then map[]
    else MapOf(s[..|s| - 1])[s[|s| - 1].id := s[|s| - 1].doc]
  }

  /** The ids occurring in `s`. */
  function Ids<D>(s: seq<Entry<D>>): set<string>
  {
    if |s| == 0 then {} else Ids(s[..|s| - 1]) + {s[|s| - 1].id}
  }

  /** No id occurs twice in `s`. */
  predicate Distinct<D>(s: seq<Entry<D>>)
  {
    forall i, j :: 0 <= i < j < |s| ==> s[i].id != s[j].id
  }

  lemma {:induction false} IdsMember<D>(s: seq<Entry<D>>, id: string)
    ensures id in Ids(s) <==> exists i :: 0 <= i < |s| && s[i].id == id
  {
    if |s| > 0 {
      var init := s[..|s| - 1];
      IdsMember(init, id);
      if exists i :: 0 <= i < |init| && init[i].id == id {
        var i :| 0 <= i < |init| && init[i].id == id;
        assert s[i].id == id;
      }
      if exists i :: 0 <= i < |s| && s[i].id == id {
        var i :| 0 <= i < |s| && s[i].id == id;
        if i < |init| { assert init[i].id == id; }
      }
    }
  }

  lemma {:induction false} IdsAppend<D>(a: seq<Entry<D>>, b: seq<Entry<D>>)
    ensures Ids(a + b) == Ids(a) + Ids(b)
    decreases |b|
  {
    if |b| > 0 {
      assert (a + b)[..|a + b| - 1] == a + b[..|b| - 1];
      IdsAppend(a, b[..|b| - 1]);
    } else {
      assert a + b == a;
    }
  }

  /** The dictionary holds exactly the ids of the entries assigned to it. */
  lemma {:induction false} MapOfKeys<D>(s: seq<Entry<D>>)
    ensures MapOf(s).Keys == Ids(s)
  {
    if |s| > 0 {
      MapOfKeys(s[..|s| - 1]);
    }
  }

  lemma MapOfAppend<D>(s: seq<Entry<D>>, e: Entry<D>)
    ensures MapOf(s + [e]) == MapOf(s)[e.id := e.doc]
  {
  }

  /** A repeated id keeps only the document of its last occurrence. */
  lemma {:induction false} MapOfLastWins<D>(s: seq<Entry<D>>, i: int)
    requires 0 <= i < |s|
    requires forall j :: i < j < |s| ==> s[j].id != s[i].id
    ensures s[i].id in MapOf(s) && MapOf(s)[s[i].id] == s[i].doc
  {
    if i < |s| - 1 {
      var init := s[..|s| - 1];
      assert init[i] == s[i];
      MapOfLastWins(init, i);
    }
  }

  /** Every stored document is the document of some entry with that id. */
  lemma {:induction false} MapOfValues<D>(s: seq<Entry<D>>, id: string)
    requires id in MapOf(s)
    ensures exists i :: 0 <= i < |s| && s[i].id == id && s[i].doc == MapOf(s)[id]
  {
    var init := s[..|s| - 1];
    if s[|s| - 1].id != id {
      MapOfValues(init, id);
      var i :| 0 <= i < |init| && init[i].id == id && init[i].doc == MapOf(init)[id];
      assert s[i] == init[i];
    }
  }

  /** Without repeated ids, every entry adds one key. */
  lemma {:induction false} MapOfDistinctSize<D>(s: seq<Entry<D>>)
    requires Distinct(s)
    ensures |MapOf(s)| == |s|
  {
    if |s| > 0 {
      var init := s[..|s| - 1];
      MapOfDistinctSize(init);
      MapOfKeys(init);
      IdsMember(init, s[|s| - 1].id);
    }
  }

  /** One submission: the entries assigned since the previous submission, and
      whether it is the final flush after the loop. */
  datatype Flush<D> = Flush(segment: seq<Entry<D>>, atEnd: bool)
  {
    /** The dictionary actually submitted. */
    function Batch(): map<string, D>
    {
      MapOf(segment)
    }
  }

  /** The submissions of the loop over `items`, when the entries in `pending`
      have been assigned since the last submission. */
  function Run<D>(items: seq<Entry<D>>, pending: seq<Entry<D>>, size: nat): (r: seq<Flush<D>>)
    ensures |r| <= |items| + 1
    decreases |items|
  {
    if |items| == 0 then
      if |MapOf(pending)| > 0 then [Flush(pending, true)] else []
    else
      var p := pending + [items[0]];
      if |MapOf(p)| == size then [Flush(p, false)] + Run(items[1..], [], size)
      else Run(items[1..], p, size)
  }

  /** The dictionaries submitted, in order. */
  function Batches<D>(fs: seq<Flush<D>>): (r: seq<map<string, D>>)
    ensures |r| == |fs|
    ensures forall k :: 0 <= k < |fs| ==> r[k] == fs[k].Batch()
  {
    if |fs| == 0 then [] else [fs[0].Batch()] + Batches(fs[1..])
  }

  /** All submitted segments laid end to end. */
  function Flatten<D>(fs: seq<Flush<D>>): seq<Entry<D>>
  {
    if |fs| == 0 then [] else fs[0].segment + Flatten(fs[1..])
  }

  /** Sum of the sizes of the submitted dictionaries. */
  function TotalSize<D>(bs: seq<map<string, D>>): nat
  {
    if |bs| == 0 then 0 else |bs[0]| + TotalSize(bs[1..])
  }

  /** Number of submitted dictionaries that contain `id`. */
  function Occurrences<D>(id: string, bs: seq<map<string, D>>): nat
  {
    if |bs| == 0 then 0 else (if id in bs[0] then 1 else 0) + Occurrences(id, bs[1..])
  }

  /** The dictionaries of a flush followed by more flushes. */
  lemma BatchesCons<D>(f: Flush<D>, fs: seq<Flush<D>>)
    ensures Batches([f] + fs) == [f.Batch()] + Batches(fs)
  {
    assert ([f] + fs)[1..] == fs;
  }

  /** The submitted segments are consecutive pieces of the input: together
      they are exactly the entries seen, in order. */
  lemma {:induction false} RunPartitions<D>(items: seq<Entry<D>>, pending: seq<Entry<D>>, size: nat)
    ensures Flatten(Run(items, pending, size)) == pending + items
    decreases |items|
  {
    if |items| == 0 {
      assert pending + items == pending;
    } else {
      var p := pending + [items[0]];
      assert pending + items == p + items[1..];
      if |MapOf(p)| == size {
        RunPartitions(items[1..], [], size);
      } else {
        RunPartitions(items[1..], p, size);
      }
    }
  }

  /** An entry of a submitted segment is an entry of the flattened run. */
  lemma {:induction false} FlattenMember<D>(fs: seq<Flush<D>>, k: int, e: Entry<D>)
    requires 0 <= k < |fs| && e in fs[k].segment
    ensures e in Flatten(fs)
  {
    if k > 0 {
      FlattenMember(fs[1..], k - 1, e);
    }
  }

  /** Every dictionary submitted inside the loop holds exactly `size`
      entries; the final flush, if any, is the last submission and holds
      between 1 and `size - 1` entries. */
  lemma {:induction false} RunSizes<D>(items: seq<Entry<D>>, pending: seq<Entry<D>>, size: nat)
    requires |MapOf(pending)| < size
    ensures forall k :: 0 <= k < |Run(items, pending, size)| && !Run(items, pending, size)[k].atEnd ==>
              |Run(items, pending, size)[k].Batch()| == size
    ensures forall k :: 0 <= k < |Run(items, pending, size)| && Run(items, pending, size)[k].atEnd ==>
              k == |Run(items, pending, size)| - 1 && 0 < |Run(items, pending, size)[k].Batch()| < size
    decreases |items|
  {
    if |items| > 0 {
      var p := pending + [items[0]];
      MapOfAppend(pending, items[0]);
      if |MapOf(p)| == size {
        RunSizes(items[1..], [], size);
        var rest := Run(items[1..], [], size);
        assert Run(items, pending, size) == [Flush(p, false)] + rest;
      } else {
        RunSizes(items[1..], p, size);
      }
    }
  }

  /** A repetition-free sequence splits into repetition-free parts with
      disjoint ids. */
  lemma DistinctSplit<D>(a: seq<Entry<D>>, b: seq<Entry<D>>)
    requires Distinct(a + b)
    ensures Distinct(a) && Distinct(b)
    ensures Ids(a) !! Ids(b)
  {
    forall i, j | 0 <= i < j < |a| ensures a[i].id != a[j].id {
      assert a[i] == (a + b)[i] && a[j] == (a + b)[j];
    }
    forall i, j | 0 <= i < j < |b| ensures b[i].id != b[j].id {
      assert b[i] == (a + b)[|a| + i] && b[j] == (a + b)[|a| + j];
    }
    forall id | id in Ids(a) ensures id !in Ids(b) {
      IdsMember(a, id);
      IdsMember(b, id);
      var i :| 0 <= i < |a| && a[i].id == id;
      forall j | 0 <= j < |b| ensures b[j].id != id {
        assert (a + b)[i] == a[i] && (a + b)[|a| + j] == b[j];
      }
    }
  }

  /** Without repeated ids, the submitted sizes add up to the number of
      entries. */
  lemma {:induction false} RunTotalSize<D>(items: seq<Entry<D>>, pending: seq<Entry<D>>, size: nat)
    requires Distinct(pending + items)
    ensures TotalSize(Batches(Run(items, pending, size))) == |pending| + |items|
    decreases |items|
  {
    if |items| == 0 {
      assert pending + items == pending;
      MapOfDistinctSize(pending);
    } else {
      var p := pending + [items[0]];
      var rest := items[1..];
      assert pending + items == p + rest;
      DistinctSplit(p, rest);
      if |MapOf(p)| == size {
        assert [] + rest == rest;
        RunTotalSize(rest, [], size);
        MapOfDistinctSize(p);
        BatchesCons(Flush(p, false), Run(rest, [], size));
      } else {
        RunTotalSize(rest, p, size);
      }
    }
  }

  /** Without repeated ids, every id seen is in exactly one submitted
      dictionary, and no other id is in any. */
  lemma {:induction false} RunOccurrences<D>(items: seq<Entry<D>>, pending: seq<Entry<D>>, size: nat, id: string)
    requires Distinct(pending + items)
    ensures Occurrences(id, Batches(Run(items, pending, size))) == if id in Ids(pending + items) then 1 else 0
    decreases |items|
  {
    if |items| == 0 {
      assert pending + items == pending;
      MapOfKeys(pending);
    } else {
      var p := pending + [items[0]];
      var rest := items[1..];
      assert pending + items == p + rest;
      DistinctSplit(p, rest);
      if |MapOf(p)| == size {
        assert [] + rest == rest;
        RunOccurrences(rest, [], size, id);
        MapOfKeys(p);
        IdsAppend(p, rest);
        BatchesCons(Flush(p, false), Run(rest, [], size));
      } else {
        RunOccurrences(rest, p, size, id);
      }
    }
  }

  /** One turn of the loop: the entry joins the pending segment, whose
      dictionary is submitted when it reaches `size` entries. */
  lemma RunStep<D>(rest: seq<Entry<D>>, pending: seq<Entry<D>>, size: nat)
    requires |rest| > 0
    ensures var p := pending + [rest[0]];
            Batches(Run(rest, pending, size)) ==
              if |MapOf(p)| == size then [MapOf(p)] + Batches(Run(rest[1..], [], size))
              else Batches(Run(rest[1..], p, size))
  {
    var p := pending + [rest[0]];
    if |MapOf(p)| == size {
      BatchesCons(Flush(p, false), Run(rest[1..], [], size));
    }
  }

  /** The loop of `Ingestor.ingest` over already assembled documents: the
      dictionaries it hands to `ingest_to_es`, in order. */
  method SubmitInBatches<D>(items: seq<Entry<D>>, size: nat) returns (submitted: seq<map<string, D>>)
    requires 0 < size
    ensures submitted == Batches(Run(items, [], size))
  {
    var batch: map<string, D> := map[];
    ghost var pending: seq<Entry<D>> := [];
    submitted := [];
    for i := 0 to |items|
      invariant batch == MapOf(pending)
      invariant |batch| < size
      invariant submitted + Batches(Run(items[i..], pending, size)) == Batches(Run(items, [], size))
    {
      assert items[i..][1..] == items[i + 1..];
      RunStep(items[i..], pending, size);
      MapOfAppend(pending, items[i]);
      batch := batch[items[i].id := items[i].doc];
      pending := pending + [items[i]];
      if |batch| == size {
        submitted := submitted + [batch];
        batch := map[];
        pending := [];
      }
    }
    if |batch| > 0 {
      submitted := submitted + [batch];
    }
  }

  /** Seen from the caller: every submitted dictionary but the last holds
      exactly `size` documents, and the last holds between 1 and `size`. */
  lemma SubmittedSizes<D>(items: seq<Entry<D>>, size: nat)
    requires 0 < size
    ensures forall k :: 0 <= k < |Run(items, [], size)| - 1 ==> |Batches(Run(items, [], size))[k]| == size
    ensures |Run(items, [], size)| > 0 ==>
              0 < |Batches(Run(items, [], size))[|Run(items, [], size)| - 1]| <= size
  {
    RunSizes(items, [], size);
  }

  /** Three tracks with a bulk size of two give two submissions, of two
      documents and then one, in input order. */
  lemma ThreeTracksTwoBatches(a: Entry<string>, b: Entry<string>, c: Entry<string>)
    requires a.id != b.id && b.id != c.id && a.id != c.id
    ensures |Run([a, b, c], [], 2)| == 2
    ensures Run([a, b, c], [], 2)[0] == Flush([a, b], false)
    ensures Run([a, b, c], [], 2)[1] == Flush([c], true)
  {
    var last := Run([], [c], 2);
    assert last == [Flush([c], true)];
    assert [c][1..] == [] && [] + [c] == [c];
    assert Run([c], [], 2) == last;
    MapOfDistinctSize([a, b]);
    assert [b, c][1..] == [c] && [a] + [b] == [a, b];
    assert Run([b, c], [a], 2) == [Flush([a, b], false)] + last;
    assert [a, b, c][1..] == [b, c] && [] + [a] == [a];
    assert Run([a, b, c], [], 2) == Run([b, c], [a], 2);
  }
}

=== FILE: bulk.dfy ===
/** The search-service side of the loader (`Eshelper`): the pre-flight guards
    and the newline-delimited body of one bulk submission. */
module Bulk {
  import opened Common

  /** Answer of the service to `ping()`: true, false, or a connection error. */
  datatype Ping = Alive | NotAlive | Unreachable

  /** `check_host_reachable`: a negative ping is turned into a connection
      error, and either ends the process. */
  function CheckHostReachable(ping: Ping): (v: Verdict)
    ensures v == Continue <==> ping == Alive
  {
    match ping
    case Alive => Continue
    case NotAlive => Abort
    case Unreachable => Abort
  }

  /** `check_index_safe`: refuse to write into an index that already exists
      unless `force` is set. */
  function CheckIndexSafe(indexExists: bool, force: bool): (v: Verdict)
    ensures v == Abort <==> indexExists && !force
  {
    if indexExists && !force then Abort else Continue
  }

  /** The guards in the order the script runs them: host first, then the
      index, both before any track is read. */
  function Preflight(ping: Ping, indexExists: bool, force: bool): (v: Verdict)
    ensures v == Continue <==> ping == Alive && (!indexExists || force)
  {
    match CheckHostReachable(ping)
    case Abort => Abort
    case Continue => CheckIndexSafe(indexExists, force)
  }

  /** One line of a bulk body before serialisation: the action line
      `{"index": {"_id": id}}` or the document itself. */
  datatype Line<D> = IndexAction(id: string) | Source(doc: D)

  /** `order` is the dictionary's iteration order: every key exactly once. */
  predicate Enumerates<D>(order: seq<string>, batch: map<string, D>)
  {
    && (forall i, j :: 0 <= i < j < |order| ==> order[i] != order[j])
    && (forall k :: k in order ==> k in batch)
    && (forall k :: k in batch ==> k in order)
  }

  /** The action/document line pairs, one pair per key, in iteration order. */
  function BulkLines<D>(batch: map<string, D>, order: seq<string>): (lines: seq<Line<D>>)
    requires forall k :: k in order ==> k in batch
    ensures |lines| == 2 * |order|
    ensures forall i :: 0 <= i < |order| ==>
              lines[2 * i] == IndexAction(order[i]) && lines[2 * i + 1] == Source(batch[order[i]])
  {
    if |order| == 0 then []
    else [IndexAction(order[0]), Source(batch[order[0]])] + BulkLines(batch, order[1..])
  }

  /** The body string: each line serialised by `encode` (json.dumps) and
      terminated by a newline. */
  function Render<D>(lines: seq<Line<D>>, encode: Line<D> -> string): (r: string)
  {
    if |lines| == 0 then "" else encode(lines[0]) + "\n" + Render(lines[1..], encode)
  }

  /** The body is empty exactly when there are no lines, and otherwise ends
      with a newline, as the bulk API requires of its last line. */
  lemma {:induction false} RenderTerminated<D>(lines: seq<Line<D>>, encode: Line<D> -> string)
    ensures |Render(lines, encode)| >= |lines|
    ensures |Render(lines, encode)| == 0 <==> |lines| == 0
    ensures |lines| > 0 ==> Render(lines, encode)[|Render(lines, encode)| - 1] == '\n'
    decreases |lines|
  {
    if |lines| > 0 {
      RenderTerminated(lines[1..], encode);
    }
  }

  /** A serialiser that never emits a raw newline, as json.dumps without
      indentation does. */
  ghost predicate SingleLine<D(!new)>(encode: Line<D> -> string)
  {
    forall l :: '\n' !in encode(l)
  }

  /** Position of the first newline of `s`, or `|s|` if there is none. */
  function FirstNewline(s: string): (i: nat)
    ensures i <= |s|
    ensures '\n' !in s[..i]
    ensures i < |s| ==> s[i] == '\n'
  {
    if |s| == 0 || s[0] == '\n' then 0
    else
      var i := 1 + FirstNewline(s[1..]);
      assert s[..i] == [s[0]] + s[1..][..i - 1];
      i
  }

  /** Cut a newline-delimited text into its lines. */
  function SplitLines(s: string): seq<string>
    decreases |s|
  {
    if |s| == 0 then []
    else
      var i := FirstNewline(s);
      if i == |s| then [s] else [s[..i]] + SplitLines(s[i + 1..])
  }

  lemma {:induction false} FirstNewlineAfter(a: string, b: string)
    requires '\n' !in a
    ensures FirstNewline(a + "\n" + b) == |a|
    decreases |a|
  {
    if |a| > 0 {
      assert (a + "\n" + b)[1..] == a[1..] + "\n" + b;
      FirstNewlineAfter(a[1..], b);
    }
  }

  /** Splitting a rendered body gives back the serialised lines, one by one:
      the body holds exactly one newline-terminated text per line. */
  lemma {:induction false} SplitRender<D(!new)>(lines: seq<Line<D>>, encode: Line<D> -> string)
    requires SingleLine(encode)
    ensures SplitLines(Render(lines, encode)) == seq(|lines|, i requires 0 <= i < |lines| => encode(lines[i]))
    decreases |lines|
  {
    if |lines| > 0 {
      var a := encode(lines[0]);
      var rest := Render(lines[1..], encode);
      var s := Render(lines, encode);
      assert s == a + "\n" + rest;
      FirstNewlineAfter(a, rest);
      assert s[..|a|] == a;
      assert s[|a| + 1..] == rest;
      SplitRender(lines[1..], encode);
    }
  }

  lemma EnumerationSize<D>(order: seq<string>, batch: map<string, D>)
    requires Enumerates(order, batch)
    ensures |order| == |batch|
  {
    var keys := set i | 0 <= i < |order| :: order[i];
    assert keys == batch.Keys;
    SeqSetSize(order);
  }

  lemma {:induction false} SeqSetSize(order: seq<string>)
    requires forall i, j :: 0 <= i < j < |order| ==> order[i] != order[j]
    ensures |set i | 0 <= i < |order| :: order[i]| == |order|
  {
    if |order| > 0 {
      var init := order[..|order| - 1];
      SeqSetSize(init);
      var s := set i | 0 <= i < |order| :: order[i];
      var t := set i | 0 <= i < |init| :: init[i];
      assert s == t + {order[|order| - 1]};
      assert order[|order| - 1] !in t;
    }
  }

  /** A call made to the search service. */
  datatype EsCall = BulkWrite(index: string, docType: string, body: string) | FlushIndex(index: string)

  /** `ingest_to_es`: one bulk write of the whole dictionary followed by an
      index flush, or no call at all when the body comes out empty. */
  function IngestToEs<D>(index: string, docType: string, batch: map<string, D>,
                         order: seq<string>, encode: Line<D> -> string): (calls: seq<EsCall>)
    requires Enumerates(order, batch)
    ensures |calls| == 0 <==> |batch| == 0
    ensures |calls| > 0 ==>
              calls == [BulkWrite(index, docType, Render(BulkLines(batch, order), encode)), FlushIndex(index)]
  {
    EnumerationSize(order, batch);
    var body := Render(BulkLines(batch, order), encode);
    assert |order| > 0 ==> body != "";
    if body != "" then [BulkWrite(index, docType, body), FlushIndex(index)] else []
  }

  /** The body of a non-empty submission is two newline-terminated lines per
      document: the index action carrying the id, then the document. */
  lemma BulkBodyShape<D(!new)>(index: string, docType: string, batch: map<string, D>,
                         order: seq<string>, encode: Line<D> -> string)
    requires Enumerates(order, batch)
    requires SingleLine(encode)
    requires |batch| > 0
    ensures var lines := SplitLines(IngestToEs(index, docType, batch, order, encode)[0].body);
            && |lines| == 2 * |batch|
            && |order| == |batch|
            && forall i :: 0 <= i < |order| ==>
                 lines[2 * i] == encode(IndexAction(order[i]))
                 && lines[2 * i + 1] == encode(Source(batch[order[i]]))
  {
    EnumerationSize(order, batch);
    var bl := BulkLines(batch, order);
    var calls := IngestToEs(index, docType, batch, order, encode);
    assert calls[0].body == Render(bl, encode);
    SplitRender(bl, encode);
    var lines := SplitLines(calls[0].body);
    var encoded := seq(|bl|, j requires 0 <= j < |bl| => encode(bl[j]));
    assert lines == encoded;
    forall i | 0 <= i < |order|
      ensures lines[2 * i] == encode(IndexAction(order[i]))
      ensures lines[2 * i + 1] == encode(Source(batch[order[i]]))
    {
      var a, b := 2 * i, 2 * i + 1;
      assert b < |bl|;
      assert encoded[a] == encode(bl[a]) && encoded[b] == encode(bl[b]);
    }
  }
}

=== FILE: common.dfy ===
/** Shared vocabulary: results that may carry an error, and the verdict of a
    pre-flight check that either lets the run continue or ends the process
    with exit status 1. */
module Common {

  /** A computation that either produced a value or raised an error. */
  datatype Result<+T, +E> = Success(value: T) | Failure(error: E)

  /** Verdict of a guard: carry on, or log an error and leave with `sys.exit(1)`. */
  datatype Verdict = Continue | Abort

  /** `s` ends with `suffix` (Python's `str.endswith`). */
  predicate EndsWith(s: string, suffix: string)
  {
    |suffix| <= |s| && s[|s| - |suffix|..] == suffix
  }

  /** `s` begins with `prefix` (Python's `str.startswith`). */
  predicate StartsWith(s: string, prefix: string)
  {
    |prefix| <= |s| && s[..|prefix|] == prefix
  }
}

=== FILE: fields.dfy ===
/** Field selection and document assembly: which getters of the HDF5 reader
    are called, under which document key their value is stored, and what one
    track's document looks like. */
module Fields {
  import opened Common
  import opened Values

  /** The metadata fields copied into the search index (`msd_fields`). */
  const MsdFields: seq<string> :=
    ["artist_name", "artist_id", "artist_location", "artist_mbid", "duration",
     "release", "tempo", "title", "year", "key", "mode"]

  /** Separator the getter names are split on. */
  const GetterPrefix: string := "get_"

  /** Namespace prepended to every field name in a document. */
  const KeyPrefix: string := "msd_"

  /** One track's document: namespaced field name to normalised value. */
  type Doc = map<string, Value>

  /** The separator "get_" ends at position `j` of `s`. */
  predicate SeparatorEndsAt(s: string, j: int)
  {
    4 <= j <= |s| && s[j - 4] == 'g' && s[j - 3] == 'e' && s[j - 2] == 't' && s[j - 1] == '_'
  }

  /** `SeparatorEndsAt` spells `GetterPrefix` out character by character, which
      keeps the proofs about `LastPiece` cheap; it is the same test. */
  lemma SeparatorEndsAtPrefix(s: string, j: int)
    ensures SeparatorEndsAt(s, j) <==> 4 <= j <= |s| && s[j - 4..j] == GetterPrefix
  {
    if 4 <= j <= |s| {
      var w := s[j - 4..j];
      assert w[0] == s[j - 4] && w[1] == s[j - 3] && w[2] == s[j - 2] && w[3] == s[j - 1];
      assert GetterPrefix == ['g', 'e', 't', '_'];
    }
  }

  /** `s` contains the separator "get_" somewhere. */
  predicate HasSeparator(s: string)
  {
    exists j | 4 <= j <= |s| :: SeparatorEndsAt(s, j)
  }

  /** `s.split("get_")[-1]`: the text after the last occurrence of "get_", or
      the whole of `s` when it has none. Scanning from the right is enough
      because two occurrences of "get_" can never overlap. */
  function LastPiece(s: string): (r: string)
    ensures |r| <= |s|
    decreases |s|
  {
    if SeparatorEndsAt(s, |s|) then ""
    else if |s| == 0 then ""
    else LastPiece(s[..|s| - 1]) + [s[|s| - 1]]
  }

  /** The last piece is a suffix of `s`. */
  lemma {:induction false} LastPieceIsSuffix(s: string)
    ensures LastPiece(s) == s[|s| - |LastPiece(s)|..]
    decreases |s|
  {
    if !SeparatorEndsAt(s, |s|) && |s| > 0 {
      var init := s[..|s| - 1];
      LastPieceIsSuffix(init);
      assert LastPiece(s) == LastPiece(init) + [s[|s| - 1]];
    }
  }

  /** The last piece holds no separator. */
  lemma {:induction false} LastPieceHasNoSeparator(s: string)
    ensures !HasSeparator(LastPiece(s))
    decreases |s|
  {
    if !SeparatorEndsAt(s, |s|) && |s| > 0 {
      var init := s[..|s| - 1];
      var piece := LastPiece(init);
      LastPieceHasNoSeparator(init);
      LastPieceIsSuffix(s);
      var r := piece + [s[|s| - 1]];
      assert r == LastPiece(s);
      forall j | 4 <= j <= |r| ensures !SeparatorEndsAt(r, j) {
        if j == |r| {
          assert r[j - 4..j] == s[|s| - 4..];
        } else {
          assert !SeparatorEndsAt(piece, j);
        }
      }
    }
  }

  /** The last piece is the whole of `s`, or directly preceded by "get_". */
  lemma {:induction false} LastPieceFollowsSeparator(s: string)
    ensures LastPiece(s) == s || SeparatorEndsAt(s, |s| - |LastPiece(s)|)
    decreases |s|
  {
    if !SeparatorEndsAt(s, |s|) && |s| > 0 {
      var init := s[..|s| - 1];
      LastPieceFollowsSeparator(init);
      var r := LastPiece(s);
      assert r == LastPiece(init) + [s[|s| - 1]];
      if LastPiece(init) == init {
        assert r == s;
      } else {
        assert SeparatorEndsAt(init, |init| - |LastPiece(init)|);
      }
    }
  }

  /** The name of the field a getter serves (`getter.split("get_")[-1]`). */
  function FieldName(getter: string): string
  {
    LastPiece(getter)
  }

  /** The document key a getter's value is stored under. */
  function Key(getter: string): string
  {
    KeyPrefix + FieldName(getter)
  }

  /** A name of the reader module whose field part is on the allow-list. */
  predicate Selected(name: string)
  {
    FieldName(name) in MsdFields
  }

  /** `getters`: the names of the reader module, in the module's own order,
      whose field part is an allow-listed field. */
  function SelectGetters(names: seq<string>): (r: seq<string>)
    ensures forall g :: g in r <==> g in names && Selected(g)
    ensures forall i :: 0 <= i < |r| ==> Selected(r[i])
    ensures |r| <= |names|
  {
    if |names| == 0 then []
    else if Selected(names[0]) then [names[0]] + SelectGetters(names[1..])
    else SelectGetters(names[1..])
  }

  /** Selection keeps the module's order and multiplicity: selecting from two
      runs of names one after the other is selecting from each in turn. */
  lemma {:induction false} SelectGettersAppend(a: seq<string>, b: seq<string>)
    ensures SelectGetters(a + b) == SelectGetters(a) + SelectGetters(b)
    decreases |a|
  {
    if |a| > 0 {
      assert (a + b)[0] == a[0];
      assert (a + b)[1..] == a[1..] + b;
      SelectGettersAppend(a[1..], b);
    } else {
      assert a + b == b;
    }
  }

  /** The field part of "get_" followed by a separator-free field name is that
      field name, whatever precedes the separator. */
  lemma {:induction false} FieldNameOfGetter(p: string, f: string)
    requires !HasSeparator(f)
    ensures FieldName(p + GetterPrefix + f) == f
    decreases |f|
  {
    var s := p + GetterPrefix + f;
    if |f| == 0 {
      assert SeparatorEndsAt(s, |s|);
    } else {
      var init := f[..|f| - 1];
      assert !HasSeparator(init) by {
        forall j | 4 <= j <= |init| ensures !SeparatorEndsAt(init, j) {
          assert !SeparatorEndsAt(f, j);
        }
      }
      FieldNameOfGetter(p, init);
      assert s[..|s| - 1] == p + GetterPrefix + init;
      assert !SeparatorEndsAt(s, |s|) by {
        if |f| >= 4 {
          assert !SeparatorEndsAt(f, |f|);
        } else {
          // a separator ending here would start inside the separator itself
          assert s[|s| - 4] == GetterPrefix[|f|];
        }
      }
      assert f == init + [f[|f| - 1]];
    }
  }

  /** Every allow-listed field is served by its "get_" getter. */
  lemma AllowListedGettersSelected(f: string)
    requires f in MsdFields
    ensures Selected(GetterPrefix + f)
    ensures Key(GetterPrefix + f) == KeyPrefix + f
  {
    assert !HasSeparator(f) by {
      forall j | 4 <= j <= |f| ensures !SeparatorEndsAt(f, j) {
      }
    }
    FieldNameOfGetter("", f);
    assert "" + GetterPrefix + f == GetterPrefix + f;
  }

  /** Outcome of calling one getter on one track. */
  datatype Fetch = Got(v: Value) | AttributeError

  /** Assemble one track's document from the getters in order: a getter that
      raises AttributeError is skipped, every other value goes through
      `ConvertType` and is stored under its key (a later getter serving the
      same key overwrites an earlier one); a ValueError from `ConvertType`
      fails the whole record. */
  function BuildDoc(getters: seq<string>, fetch: string -> Fetch): (r: Result<Doc, ConvertError>)
    ensures r.Success? ==> forall k :: k in r.value ==> PassesThrough(r.value[k])
    decreases |getters|
  {
    if |getters| == 0 then Success(map[])
    else
      var g := getters[|getters| - 1];
      match BuildDoc(getters[..|getters| - 1], fetch)
      case Failure(e) => Failure(e)
      case Success(d) =>
        match fetch(g)
        case AttributeError => Success(d)
        case Got(v) =>
          match ConvertType(v)
          case Failure(e) => Failure(e)
          case Success(w) => Success(d[Key(g) := w])
  }

  /** The getter at position `i` returned a value that cannot be normalised. */
  predicate Unconvertible(getters: seq<string>, fetch: string -> Fetch, i: int)
    requires 0 <= i < |getters|
  {
    fetch(getters[i]).Got? && ConvertType(fetch(getters[i]).v).Failure?
  }

  /** The record fails exactly when one of its getters returned an array of
      more than one dimension. */
  lemma {:induction false} BuildDocFailsIff(getters: seq<string>, fetch: string -> Fetch)
    ensures BuildDoc(getters, fetch).Failure? <==>
            exists i :: 0 <= i < |getters| && Unconvertible(getters, fetch, i)
    decreases |getters|
  {
    if |getters| > 0 {
      var n := |getters| - 1;
      var init := getters[..n];
      BuildDocFailsIff(init, fetch);
      if exists i :: 0 <= i < |init| && Unconvertible(init, fetch, i) {
        var i :| 0 <= i < |init| && Unconvertible(init, fetch, i);
        assert Unconvertible(getters, fetch, i);
      } else {
        forall i | 0 <= i < n ensures !Unconvertible(getters, fetch, i) {
          assert !Unconvertible(init, fetch, i);
        }
        if Unconvertible(getters, fetch, n) {
          assert BuildDoc(getters, fetch).Failure?;
        } else {
          assert BuildDoc(getters, fetch).Success?;
        }
      }
    }
  }

  /** Keys of the getters, among the first `|getters|`, that returned a value. */
  function FetchedKeys(getters: seq<string>, fetch: string -> Fetch): set<string>
    decreases |getters|
  {
    if |getters| == 0 then {}
    else
      var g := getters[|getters| - 1];
      FetchedKeys(getters[..|getters| - 1], fetch) + (if fetch(g).Got? then {Key(g)} else {})
  }

  /** A key is fetched exactly when some getter serving it returned a value. */
  lemma {:induction false} FetchedKeysIff(getters: seq<string>, fetch: string -> Fetch, k: string)
    ensures k in FetchedKeys(getters, fetch) <==>
            exists i :: 0 <= i < |getters| && fetch(getters[i]).Got? && Key(getters[i]) == k
    decreases |getters|
  {
    if |getters| > 0 {
      var n := |getters| - 1;
      var init := getters[..n];
      FetchedKeysIff(init, fetch, k);
      if exists i :: 0 <= i < |init| && fetch(init[i]).Got? && Key(init[i]) == k {
        var i :| 0 <= i < |init| && fetch(init[i]).Got? && Key(init[i]) == k;
        assert getters[i] == init[i];
      }
      if exists i :: 0 <= i < |getters| && fetch(getters[i]).Got? && Key(getters[i]) == k {
        var i :| 0 <= i < |getters| && fetch(getters[i]).Got? && Key(getters[i]) == k;
        if i < n {
          assert getters[i] == init[i];
        }
      }
    }
  }

  /** The keys of an assembled document are exactly the keys of the getters
      that did not raise AttributeError. */
  lemma {:induction false} BuildDocKeys(getters: seq<string>, fetch: string -> Fetch, k: string)
    requires BuildDoc(getters, fetch).Success?
    ensures k in BuildDoc(getters, fetch).value <==>
            exists i :: 0 <= i < |getters| && fetch(getters[i]).Got? && Key(getters[i]) == k
  {
    DocKeysAreFetched(getters, fetch);
    FetchedKeysIff(getters, fetch, k);
  }

  lemma {:induction false} DocKeysAreFetched(getters: seq<string>, fetch: string -> Fetch)
    requires BuildDoc(getters, fetch).Success?
    ensures BuildDoc(getters, fetch).value.Keys == FetchedKeys(getters, fetch)
    decreases |getters|
  {
    if |getters| > 0 {
      DocKeysAreFetched(getters[..|getters| - 1], fetch);
    }
  }

  /** The selected getters serve pairwise different fields. */
  predicate DistinctKeys(getters: seq<string>)
  {
    forall i, j :: 0 <= i < j < |getters| ==> Key(getters[i]) != Key(getters[j])
  }

  /** With one getter per field, a getter that raised AttributeError leaves
      only its own key out, and every other getter's normalised value is
      stored under its key. */
  lemma {:induction false} BuildDocFields(getters: seq<string>, fetch: string -> Fetch, i: int)
    requires DistinctKeys(getters)
    requires BuildDoc(getters, fetch).Success?
    requires 0 <= i < |getters|
    ensures fetch(getters[i]).AttributeError? ==> Key(getters[i]) !in BuildDoc(getters, fetch).value
    ensures fetch(getters[i]).Got? ==>
              && ConvertType(fetch(getters[i]).v).Success?
              && Key(getters[i]) in BuildDoc(getters, fetch).value
              && BuildDoc(getters, fetch).value[Key(getters[i])] == ConvertType(fetch(getters[i]).v).value
    decreases |getters|
  {
    var n := |getters| - 1;
    var init := getters[..n];
    assert DistinctKeys(init) by {
      forall a, b | 0 <= a < b < |init| ensures Key(init[a]) != Key(init[b]) {
        assert init[a] == getters[a] && init[b] == getters[b];
      }
    }
    if i < n {
      assert init[i] == getters[i];
      BuildDocFields(init, fetch, i);
      assert Key(getters[n]) != Key(getters[i]);
    } else if fetch(getters[n]).AttributeError? {
      BuildDocKeys(init, fetch, Key(getters[n]));
      assert Key(getters[n]) !in BuildDoc(init, fetch).value by {
        forall j | 0 <= j < |init| ensures Key(init[j]) != Key(getters[n]) {
          assert init[j] == getters[j];
        }
      }
    }
  }

  /** `key` is "msd_" followed by an allow-listed field name. */
  ghost predicate AllowListedKey(key: string)
  {
    exists f :: f in MsdFields && key == KeyPrefix + f
  }

  /** Every key of a document assembled from allow-listed getters is "msd_"
      followed by an allow-listed field name. */
  lemma DocKeysAllowListed(getters: seq<string>, fetch: string -> Fetch, k: string)
    requires forall i :: 0 <= i < |getters| ==> Selected(getters[i])
    requires BuildDoc(getters, fetch).Success?
    requires k in BuildDoc(getters, fetch).value
    ensures AllowListedKey(k)
  {
    BuildDocKeys(getters, fetch, k);
    var i :| 0 <= i < |getters| && fetch(getters[i]).Got? && k == Key(getters[i]);
    assert Selected(getters[i]);
  }
}

=== FILE: ingestor.dfy ===
/** `Ingestor.ingest` end to end: every track yielded by the source is turned
    into a document, keyed by its track id, and batched into bulk
    submissions. A ValueError while building a document ends the run: the
    batches already submitted stay submitted, the partial batch is lost. */
module Ingestor {
  import opened Common
  import opened Values
  import opened Fields
  import opened Batching
  import opened Sources

  /** The reader's accessors for one track: `get_track_id` and the getters. */
  datatype Reader = Reader(trackId: TrackRef -> string, fetch: (TrackRef, string) -> Fetch)

  /** The getters of the reader as seen for one track. */
  function FetchFor(reader: Reader, t: TrackRef): string -> Fetch
  {
    g => reader.fetch(t, g)
  }

  /** Documents of the tracks up to the first one whose document cannot be
      built, and whether such a track was met. */
  datatype Prepared = Prepared(entries: seq<Entry<Doc>>, failed: bool)

  function Prepare(tracks: seq<TrackRef>, getters: seq<string>, reader: Reader): (p: Prepared)
    ensures |p.entries| <= |tracks|
    ensures !p.failed ==> |p.entries| == |tracks|
  {
    if |tracks| == 0 then Prepared([], false)
    else
      match BuildDoc(getters, FetchFor(reader, tracks[0]))
      case Failure(_) => Prepared([], true)
      case Success(d) =>
        var rest := Prepare(tracks[1..], getters, reader);
        Prepared([Entry(reader.trackId(tracks[0]), d)] + rest.entries, rest.failed)
  }

  /** What the run leaves behind: the dictionaries submitted, and whether it
      ended with the uncaught ValueError. */
  datatype IngestOutcome = Completed(submitted: seq<map<string, Doc>>) | Crashed(submitted: seq<map<string, Doc>>)

  /** The submissions made inside the loop, without the final flush. */
  function InLoop<D>(fs: seq<Flush<D>>): (r: seq<Flush<D>>)
    ensures r <= fs && |fs| <= |r| + 1
  {
    if |fs| > 0 && fs[|fs| - 1].atEnd then fs[..|fs| - 1] else fs
  }

  /** `Ingestor.ingest` with bulk size `size`: it makes at most one
      submission more than there are tracks. */
  function Ingest(tracks: seq<TrackRef>, getters: seq<string>, reader: Reader, size: nat): (r: IngestOutcome)
    ensures |r.submitted| <= |tracks| + 1
  {
    var p := Prepare(tracks, getters, reader);
    var fs := Run(p.entries, [], size);
    if p.failed then Crashed(Batches(InLoop(fs))) else Completed(Batches(fs))
  }

  /** Track `i` has a field whose value cannot be normalised. */
  predicate TrackFails(tracks: seq<TrackRef>, getters: seq<string>, reader: Reader, i: int)
    requires 0 <= i < |tracks|
  {
    BuildDoc(getters, FetchFor(reader, tracks[i])).Failure?
  }

  /** The run crashes exactly when some track carries an array of more than
      one dimension; every track before the stop yields an entry holding its
      id and its document. */
  lemma {:induction false} PrepareSpec(tracks: seq<TrackRef>, getters: seq<string>, reader: Reader)
    ensures var p := Prepare(tracks, getters, reader);
            && (p.failed <==> exists i :: 0 <= i < |tracks| && TrackFails(tracks, getters, reader, i))
            && forall i :: 0 <= i < |p.entries| ==>
                 && p.entries[i].id == reader.trackId(tracks[i])
                 && BuildDoc(getters, FetchFor(reader, tracks[i])) == Success(p.entries[i].doc)
  {
    if |tracks| > 0 {
      var rest := tracks[1..];
      PrepareSpec(rest, getters, reader);
      var p := Prepare(tracks, getters, reader);
      if BuildDoc(getters, FetchFor(reader, tracks[0])).Success? {
        var q := Prepare(rest, getters, reader);
        assert p.entries == [Entry(reader.trackId(tracks[0]), BuildDoc(getters, FetchFor(reader, tracks[0])).value)] + q.entries;
        if exists i :: 0 <= i < |rest| && TrackFails(rest, getters, reader, i) {
          var i :| 0 <= i < |rest| && TrackFails(rest, getters, reader, i);
          assert TrackFails(tracks, getters, reader, i + 1);
        }
        if exists i :: 0 <= i < |tracks| && TrackFails(tracks, getters, reader, i) {
          var i :| 0 <= i < |tracks| && TrackFails(tracks, getters, reader, i);
          assert i > 0;
          assert TrackFails(rest, getters, reader, i - 1);
        }
        forall i | 0 <= i < |p.entries|
          ensures p.entries[i].id == reader.trackId(tracks[i])
          ensures BuildDoc(getters, FetchFor(reader, tracks[i])) == Success(p.entries[i].doc)
        {
          if i > 0 {
            assert p.entries[i] == q.entries[i - 1];
            assert tracks[i] == rest[i - 1];
          }
        }
      } else {
        assert TrackFails(tracks, getters, reader, 0);
      }
    }
  }

  /** Preparation stops at the track whose document failed: the entries are
      those of the tracks before it. Together with `PrepareSpec` this makes it
      the first failing track. */
  lemma {:induction false} PrepareStopsAtFailure(tracks: seq<TrackRef>, getters: seq<string>, reader: Reader)
    ensures var p := Prepare(tracks, getters, reader);
            p.failed ==> |p.entries| < |tracks| && TrackFails(tracks, getters, reader, |p.entries|)
  {
    if |tracks| > 0 && BuildDoc(getters, FetchFor(reader, tracks[0])).Success? {
      var rest := tracks[1..];
      PrepareStopsAtFailure(rest, getters, reader);
      var q := Prepare(rest, getters, reader);
      if q.failed {
        assert tracks[|q.entries| + 1] == rest[|q.entries|];
      }
    }
  }

  /** The run crashes exactly when some track's document cannot be built. */
  lemma CrashesIff(tracks: seq<TrackRef>, getters: seq<string>, reader: Reader, size: nat)
    ensures Ingest(tracks, getters, reader, size).Crashed? <==>
            exists i :: 0 <= i < |tracks| && TrackFails(tracks, getters, reader, i)
  {
    PrepareSpec(tracks, getters, reader);
  }

  /** After a crash, only full batches were submitted: the partial batch
      never reaches the service. */
  lemma CrashedBatchesFull(tracks: seq<TrackRef>, getters: seq<string>, reader: Reader, size: nat)
    requires 0 < size
    requires Ingest(tracks, getters, reader, size).Crashed?
    ensures forall k :: 0 <= k < |Ingest(tracks, getters, reader, size).submitted| ==>
              |Ingest(tracks, getters, reader, size).submitted[k]| == size
  {
    var p := Prepare(tracks, getters, reader);
    var fs := Run(p.entries, [], size);
    RunSizes(p.entries, [], size);
    var kept := InLoop(fs);
    forall k | 0 <= k < |kept| ensures !kept[k].atEnd {
      assert kept[k] == fs[k];
    }
  }

  /** With the script's bulk size of 1000, no submission holds more than 1000
      documents, every submission but the last holds exactly 1000, and after
      a crash every submission holds exactly 1000. */
  lemma ScriptBatchSizes(tracks: seq<TrackRef>, getters: seq<string>, reader: Reader)
    ensures var out := Ingest(tracks, getters, reader, EsBulkSize);
            forall k :: 0 <= k < |out.submitted| ==>
              && |out.submitted[k]| <= EsBulkSize
              && (k < |out.submitted| - 1 || out.Crashed? ==> |out.submitted[k]| == EsBulkSize)
  {
    var out := Ingest(tracks, getters, reader, EsBulkSize);
    var p := Prepare(tracks, getters, reader);
    var fs := Run(p.entries, [], EsBulkSize);
    RunSizes(p.entries, [], EsBulkSize);
    if out.Crashed? {
      CrashedBatchesFull(tracks, getters, reader, EsBulkSize);
    } else {
      assert out.submitted == Batches(fs);
    }
  }

  /** A completed run over tracks with pairwise different ids submits every
      track exactly once: the submitted sizes add up to the number of tracks. */
  lemma CompletedCoversAll(tracks: seq<TrackRef>, getters: seq<string>, reader: Reader, size: nat)
    requires Ingest(tracks, getters, reader, size).Completed?
    requires forall i, j :: 0 <= i < j < |tracks| ==> reader.trackId(tracks[i]) != reader.trackId(tracks[j])
    ensures TotalSize(Ingest(tracks, getters, reader, size).submitted) == |tracks|
    ensures forall i :: 0 <= i < |tracks| ==>
              Occurrences(reader.trackId(tracks[i]), Ingest(tracks, getters, reader, size).submitted) == 1
  {
    var p := Prepare(tracks, getters, reader);
    PrepareSpec(tracks, getters, reader);
    assert [] + p.entries == p.entries;
    RunTotalSize(p.entries, [], size);
    forall i | 0 <= i < |tracks|
      ensures Occurrences(reader.trackId(tracks[i]), Batches(Run(p.entries, [], size))) == 1
    {
      RunOccurrences(p.entries, [], size, reader.trackId(tracks[i]));
      IdsMember(p.entries, reader.trackId(tracks[i]));
      assert p.entries[i].id == reader.trackId(tracks[i]);
    }
  }

  /** Every document submitted, on any path, is the assembled document of
      one of the tracks. */
  lemma SubmittedDocFromTrack(tracks: seq<TrackRef>, getters: seq<string>, reader: Reader, size: nat)
    ensures var out := Ingest(tracks, getters, reader, size);
            forall k, id :: 0 <= k < |out.submitted| && id in out.submitted[k] ==>
              exists j :: 0 <= j < |tracks| && BuildDoc(getters, FetchFor(reader, tracks[j])) == Success(out.submitted[k][id])
  {
    var out := Ingest(tracks, getters, reader, size);
    forall k, id | 0 <= k < |out.submitted| && id in out.submitted[k]
      ensures exists j :: 0 <= j < |tracks| && BuildDoc(getters, FetchFor(reader, tracks[j])) == Success(out.submitted[k][id])
    {
      SubmittedDocFromTrackAt(tracks, getters, reader, size, k, id);
    }
  }

  lemma SubmittedDocFromTrackAt(tracks: seq<TrackRef>, getters: seq<string>, reader: Reader, size: nat,
                                k: int, id: string)
    requires 0 <= k < |Ingest(tracks, getters, reader, size).submitted|
    requires id in Ingest(tracks, getters, reader, size).submitted[k]
    ensures exists j :: 0 <= j < |tracks| &&
              BuildDoc(getters, FetchFor(reader, tracks[j])) == Success(Ingest(tracks, getters, reader, size).submitted[k][id])
  {
    var p := Prepare(tracks, getters, reader);
    var fs := Run(p.entries, [], size);
    var out := Ingest(tracks, getters, reader, size);
    var used := if p.failed then InLoop(fs) else fs;
    assert out.submitted == Batches(used);
    assert used[k] == fs[k];
    var seg := fs[k].segment;
    assert out.submitted[k] == MapOf(seg);
    MapOfValues(seg, id);
    var i :| 0 <= i < |seg| && seg[i].id == id && seg[i].doc == MapOf(seg)[id];
    FlattenMember(fs, k, seg[i]);
    RunPartitions(p.entries, [], size);
    assert [] + p.entries == p.entries;
    var j :| 0 <= j < |p.entries| && p.entries[j] == seg[i];
    PrepareSpec(tracks, getters, reader);
    assert BuildDoc(getters, FetchFor(reader, tracks[j])) == Success(out.submitted[k][id]);
  }

  /** Every document submitted, on any path, holds only keys "msd_" + f with
      f an allow-listed field. */
  lemma SubmittedKeysAllowListed(tracks: seq<TrackRef>, names: seq<string>, reader: Reader, size: nat)
    ensures var out := Ingest(tracks, SelectGetters(names), reader, size);
            forall k, id, key :: 0 <= k < |out.submitted| && id in out.submitted[k] && key in out.submitted[k][id]
              ==> AllowListedKey(key)
  {
    var out := Ingest(tracks, SelectGetters(names), reader, size);
    forall k, id, key | 0 <= k < |out.submitted| && id in out.submitted[k] && key in out.submitted[k][id]
      ensures AllowListedKey(key)
    {
      SubmittedDocFromTrackAt(tracks, SelectGetters(names), reader, size, k, id);
      var j :| 0 <= j < |tracks| &&
        BuildDoc(SelectGetters(names), FetchFor(reader, tracks[j])) == Success(out.submitted[k][id]);
      DocKeysAllowListed(SelectGetters(names), FetchFor(reader, tracks[j]), key);
    }
  }
}

=== FILE: sources.dfy ===
/** Record sources: where the tracks to ingest come from. Either one summary
    file holding every track (each track is a row index into the one open
    handle), or a directory tree of one-track ".h5" files. Opening files and
    walking directories happen outside the model: existence flags, the song
    count and the directory listing are inputs. */
module Sources {
  import opened Common

  /** The handle `open_h5_file_read` returns for a path. */
  datatype Handle = Opened(path: string)

  /** One item yielded by `get_track`: a handle and a row index into it. */
  datatype TrackRef = TrackRef(handle: Handle, index: int)

  /** Outcome of `load`: the process was ended by `check`, or the source is ready. */
  datatype Loading<S> = Aborted | Ready(source: S)

  // ----- summary file -----------------------------------------------------

  /** `TrackGeneratorFromSummary` (and the identical `TrackGenerator`):
      before `load` it has no handle and `num_songs` is 0. */
  datatype SummarySource = Unloaded | Loaded(summaryFile: string, fd: Handle, numSongs: int)

  /** `num_songs` of the generator. */
  function NumSongs(g: SummarySource): int
  {
    match g
    case Unloaded => 0
    case Loaded(_, _, n) => n
  }

  /** `check`: the summary file must exist. */
  function SummaryCheck(fileExists: bool): (v: Verdict)
    ensures v == Abort <==> !fileExists
  {
    if !fileExists then Abort else Continue
  }

  /** `load`: check the path, open it and read the song count the reader
      reports (`songCount`, already passed through `int`). */
  function LoadSummary(path: string, fileExists: bool, songCount: int): (r: Loading<SummarySource>)
    ensures r.Aborted? <==> !fileExists
    ensures r.Ready? ==> r.source == Loaded(path, Opened(path), songCount)
                         && NumSongs(r.source) == songCount
  {
    match SummaryCheck(fileExists)
    case Abort => Aborted
    case Continue => Ready(Loaded(path, Opened(path), songCount))
  }

  /** `get_track` of the summary source: `(h5_fd, i)` for i in range(0, num_songs). */
  method SummaryTracks(g: SummarySource) returns (tracks: seq<TrackRef>)
    ensures |tracks| == if NumSongs(g) > 0 then NumSongs(g) else 0
    ensures forall i :: 0 <= i < |tracks| ==> tracks[i].index == i
    ensures g.Loaded? ==> forall i :: 0 <= i < |tracks| ==> tracks[i].handle == g.fd
    ensures g.Unloaded? ==> tracks == []
  {
    tracks := [];
    match g {
      case Unloaded =>
      case Loaded(_, fd, n) =>
        var i := 0;
        while i < n
          invariant 0 <= i
          invariant i <= if n > 0 then n else 0
          invariant |tracks| == i
          invariant forall k :: 0 <= k < i ==> tracks[k] == TrackRef(fd, k)
        {
          tracks := tracks + [TrackRef(fd, i)];
          i := i + 1;
        }
    }
  }

  // ----- directory tree ---------------------------------------------------

  /** One triple yielded by `os.walk`. */
  datatype WalkStep = WalkStep(dirpath: string, dirnames: seq<string>, filenames: seq<string>)

  /** `TrackGeneratorFromDirectory` before and after `load`. */
  datatype DirectorySource = DirUnloaded | DirLoaded(msdDirectory: string)

  /** Extension of the one-track files. */
  const H5Extension: string := ".h5"

  /** `check` of the directory source: the path must exist and be a directory. */
  function DirectoryCheck(pathExists: bool, isDir: bool): (v: Verdict)
    ensures v == Abort <==> !pathExists || !isDir
  {
    if !pathExists || !isDir then Abort else Continue
  }

  /** `load` of the directory source: record the path, then check it. */
  function LoadDirectory(path: string, pathExists: bool, isDir: bool): (r: Loading<DirectorySource>)
    ensures r.Aborted? <==> !pathExists || !isDir
    ensures r.Ready? ==> r.source == DirLoaded(path)
  {
    match DirectoryCheck(pathExists, isDir)
    case Abort => Aborted
    case Continue => Ready(DirLoaded(path))
  }

  /** Every path of the list names a ".h5" file. */
  predicate AllH5(paths: seq<string>)
  {
    forall k :: 0 <= k < |paths| ==> EndsWith(paths[k], H5Extension)
  }

  /** POSIX `os.path.join` of two components: a relative name is put under
      the directory, an absolute one replaces it. */
  function Join(dir: string, name: string): (r: string)
    ensures !StartsWith(name, "/") ==> StartsWith(r, dir)
  {
    if StartsWith(name, "/") then name
    else if |dir| == 0 || EndsWith(dir, "/") then dir + name
    else dir + "/" + name
  }

  /** The joined path ends with the name, so it keeps the name's extension. */
  lemma JoinEndsWithName(dir: string, name: string, suffix: string)
    requires EndsWith(name, suffix)
    ensures EndsWith(Join(dir, name), name) && EndsWith(Join(dir, name), suffix)
  {
    var r := Join(dir, name);
    if !StartsWith(name, "/") {
      var sep := if |dir| == 0 || EndsWith(dir, "/") then "" else "/";
      assert r == (dir + sep) + name;
      assert r[|r| - |name|..] == name;
    }
    assert r[|r| - |suffix|..] == name[|name| - |suffix|..];
  }

  /** Paths of the ".h5" files among `names`, in listing order. */
  function H5Names(dir: string, names: seq<string>): (r: seq<string>)
    ensures |r| <= |names|
    ensures AllH5(r)
  {
    if |names| == 0 then []
    else
      var last := names[|names| - 1];
      H5Names(dir, names[..|names| - 1]) + (if EndsWith(last, H5Extension) then [Join(dir, last)] else [])
  }

  /** Paths of the ".h5" files of a whole walk, in walk order. */
  function H5Files(walk: seq<WalkStep>): (r: seq<string>)
    ensures AllH5(r)
  {
    if |walk| == 0 then []
    else
      var last := walk[|walk| - 1];
      H5Files(walk[..|walk| - 1]) + H5Names(last.dirpath, last.filenames)
  }

  /** A path is listed exactly when it joins the directory with one of its
      file names ending in ".h5". */
  lemma {:induction false} H5NamesMembers(dir: string, names: seq<string>, p: string)
    ensures p in H5Names(dir, names) <==>
            exists i :: 0 <= i < |names| && EndsWith(names[i], H5Extension) && p == Join(dir, names[i])
  {
    if |names| > 0 {
      var init := names[..|names| - 1];
      var last := names[|names| - 1];
      var tail := if EndsWith(last, H5Extension) then [Join(dir, last)] else [];
      assert H5Names(dir, names) == H5Names(dir, init) + tail;
      H5NamesMembers(dir, init, p);
      if exists i :: 0 <= i < |init| && EndsWith(init[i], H5Extension) && p == Join(dir, init[i]) {
        var i :| 0 <= i < |init| && EndsWith(init[i], H5Extension) && p == Join(dir, init[i]);
        assert names[i] == init[i];
      }
      if p in tail {
        assert EndsWith(names[|names| - 1], H5Extension) && p == Join(dir, names[|names| - 1]);
      }
      if exists i :: 0 <= i < |names| && EndsWith(names[i], H5Extension) && p == Join(dir, names[i]) {
        var i :| 0 <= i < |names| && EndsWith(names[i], H5Extension) && p == Join(dir, names[i]);
        if i < |init| {
          assert names[i] == init[i];
        } else {
          assert p in tail;
        }
      }
    }
  }

  /** Walking two parts of a tree one after the other lists their files one
      after the other. */
  lemma {:induction false} H5FilesAppend(a: seq<WalkStep>, b: seq<WalkStep>)
    ensures H5Files(a + b) == H5Files(a) + H5Files(b)
    decreases |b|
  {
    if |b| == 0 {
      assert a + b == a;
    } else {
      assert (a + b)[..|a + b| - 1] == a + b[..|b| - 1];
      H5FilesAppend(a, b[..|b| - 1]);
    }
  }

  /** The tracks yielded for a list of paths: each opened, each at index 0. */
  function AsTracks(paths: seq<string>): seq<TrackRef>
  {
    seq(|paths|, k requires 0 <= k < |paths| => TrackRef(Opened(paths[k]), 0))
  }

  /** `get_track` of the directory source over the listing `walk`: one track
      per ".h5" file, in walk order. Its index is always 0 because `sng_idx`
      is never incremented. */
  method DirectoryTracks(walk: seq<WalkStep>) returns (tracks: seq<TrackRef>)
    ensures |tracks| == |H5Files(walk)|
    ensures forall k :: 0 <= k < |tracks| ==>
              tracks[k].index == 0 && tracks[k].handle == Opened(H5Files(walk)[k])
  {
    var sngIdx := 0;
    tracks := [];
    for i := 0 to |walk|
      invariant tracks == AsTracks(H5Files(walk[..i]))
    {
      var step := walk[i];
      assert walk[..i + 1][..i] == walk[..i];
      for j := 0 to |step.filenames|
        invariant tracks == AsTracks(H5Files(walk[..i]) + H5Names(step.dirpath, step.filenames[..j]))
      {
        var f := step.filenames[j];
        assert step.filenames[..j + 1][..j] == step.filenames[..j];
        if EndsWith(f, H5Extension) {
          tracks := tracks + [TrackRef(Opened(Join(step.dirpath, f)), sngIdx)];
        }
      }
      assert step.filenames[..|step.filenames|] == step.filenames;
    }
    assert walk[..|walk|] == walk;
  }

  /** A tree with `A/A/A/TR1.h5` and `A/A/B/TR2.bin` yields exactly one
      track, for `TR1.h5`. */
  lemma OnlyH5FilesYielded()
    ensures H5Files([WalkStep("A/A/A", [], ["TR1.h5"]), WalkStep("A/A/B", [], ["TR2.bin"])]) == ["A/A/A/TR1.h5"]
  {
    var w := [WalkStep("A/A/A", [], ["TR1.h5"]), WalkStep("A/A/B", [], ["TR2.bin"])];
    assert w[..1][..0] == [];
    assert w[..1] == [w[0]];
    assert ["TR1.h5"][..0] == [];
    assert EndsWith("TR1.h5", H5Extension);
    assert !EndsWith("TR2.bin", H5Extension);
    assert ["TR2.bin"][..0] == [];
    assert !StartsWith("TR1.h5", "/") by { assert "TR1.h5"[..1][0] == 'T'; }
    assert !EndsWith("A/A/A", "/") by { assert "A/A/A"[4..][0] == 'A'; }
    assert Join("A/A/A", "TR1.h5") == "A/A/A/TR1.h5";
    assert H5Names("A/A/A", ["TR1.h5"]) == ["A/A/A/TR1.h5"];
    assert H5Names("A/A/B", ["TR2.bin"]) == [];
    assert H5Files(w[..1]) == ["A/A/A/TR1.h5"];
  }
}

=== FILE: values.dfy ===
/** Values returned by the HDF5 field getters, and their normalisation into
    values the JSON serialiser accepts (`Ingestor.convert_type`). */
module Values {
  import opened Common

  /** Number of dimensions of a numpy array. The getters of the selected
      fields return scalars or one-dimensional arrays, never 0-d arrays. */
  type Rank = n: nat | 1 <= n witness 1

  /** A Python value as it leaves a getter or the converter. The tag stands for
      the class name the converter dispatches on; payloads are kept exactly
      (int32 -> int and float64 -> float are lossless). A numpy scalar of any
      other dtype (int64, float32, bool_, string_, ...) carries the content of
      the Python value its conversion gives. */
  datatype Value =
    | Str(text: string)                      // already-decoded text
    | Int(n: int)                            // Python int
    | Float(x: real)                         // Python float
    | Int32(n: int)                          // numpy.int32
    | Float64(x: real)                       // numpy.float64
    | NdArray(ndim: Rank, items: seq<Value>) // numpy.ndarray, items in storage order
    | List(items: seq<Value>)                // Python list
    | NumpyScalar(item: Plain)               // numpy scalar of another dtype
    | Other(className: string)               // any other value; passed through

  /** The only error `convert_type` raises. */
  datatype ConvertError = MultiDimensionalArray

  /** What a value denotes once its numeric type tag is forgotten: the
      content the search service ends up indexing. */
  datatype Plain =
    | PText(text: string)
    | PInt(n: int)
    | PReal(x: real)
    | PSeq(items: seq<Plain>)
    | POther(className: string)

  function Meaning(v: Value): Plain
    decreases v
  {
    match v
    case Str(t) => PText(t)
    case Int(n) => PInt(n)
    case Int32(n) => PInt(n)
    case Float(x) => PReal(x)
    case Float64(x) => PReal(x)
    case NdArray(_, items) => PSeq(seq(|items|, i requires 0 <= i < |items| => Meaning(items[i])))
    case List(items) => PSeq(seq(|items|, i requires 0 <= i < |items| => Meaning(items[i])))
    case NumpyScalar(p) => p
    case Other(c) => POther(c)
  }

  /** A numpy scalar of any dtype. */
  predicate IsNumpyScalar(v: Value)
  {
    v.Int32? || v.Float64? || v.NumpyScalar?
  }

  /** A value `convert_type` hands back as it is: neither an ndarray nor a
      numpy int32 or float64. Numpy scalars of other dtypes are among them,
      since the converter does not look at their class names. */
  predicate PassesThrough(v: Value)
  {
    !v.Int32? && !v.Float64? && !v.NdArray?
  }

  /** The plain Python value (str, int, float, list or other object) with the
      given content. */
  function FromPlain(p: Plain): (r: Value)
    ensures Meaning(r) == p
    ensures !IsNumpyScalar(r) && !r.NdArray?
    decreases p
  {
    match p
    case PText(t) => Str(t)
    case PInt(n) => Int(n)
    case PReal(x) => Float(x)
    case PSeq(ps) =>
      var r := List(seq(|ps|, i requires 0 <= i < |ps| => FromPlain(ps[i])));
      assert Meaning(r).items == ps;
      r
    case POther(c) => Other(c)
  }

  /** The Python scalar `ndarray.tolist()` produces for one array cell: every
      numpy scalar becomes the Python value with the same content, and any
      other cell is left alone. */
  function Native(v: Value): (r: Value)
    ensures Meaning(r) == Meaning(v)
    ensures !IsNumpyScalar(r)
    ensures !IsNumpyScalar(v) ==> r == v
  {
    match v
    case Int32(n) => Int(n)
    case Float64(x) => Float(x)
    case NumpyScalar(p) => FromPlain(p)
    case _ => v
  }

  /** `ndarray.tolist()` for a one-dimensional array. */
  function ToList(items: seq<Value>): (r: seq<Value>)
    ensures |r| == |items|
    ensures forall i :: 0 <= i < |r| ==> Meaning(r[i]) == Meaning(items[i]) && !IsNumpyScalar(r[i])
  {
    seq(|items|, i requires 0 <= i < |items| => Native(items[i]))
  }

  /** `Ingestor.convert_type`: arrays of one dimension become lists, int32
      becomes int, float64 becomes float, anything else is returned as is;
      an array of more than one dimension raises ValueError. */
  function ConvertType(v: Value): (r: Result<Value, ConvertError>)
    ensures r.Failure? <==> v.NdArray? && v.ndim > 1
    ensures r.Success? ==> PassesThrough(r.value) && Meaning(r.value) == Meaning(v)
    ensures PassesThrough(v) <==> r == Success(v)
    ensures v.Int32? || v.Float64? ==> r == Success(Native(v))
    ensures v.NdArray? && v.ndim == 1 ==>
              r.Success? && r.value.List? && |r.value.items| == |v.items|
              && forall i :: 0 <= i < |v.items| ==> r.value.items[i] == Native(v.items[i])
  {
    match v
    case NdArray(ndim, items) =>
      if ndim > 1 then Failure(MultiDimensionalArray)
      else
        // the list that tolist() returns is neither int32 nor float64
        var r := Success(List(ToList(items)));
        assert Meaning(r.value) == Meaning(v) by {
          assert forall i :: 0 <= i < |items| ==> Meaning(ToList(items)[i]) == Meaning(items[i]);
        }
        r
    case Int32(n) => Success(Int(n))
    case Float64(x) => Success(Float(x))
    case _ => Success(v)
  }

  /** A one-dimensional array none of whose cells is a numpy scalar becomes the
      list of the very same cells, in the same order. */
  lemma ConvertPlainArray(items: seq<Value>)
    requires forall i :: 0 <= i < |items| ==> !IsNumpyScalar(items[i])
    ensures ConvertType(NdArray(1, items)) == Success(List(items))
  {
    assert ToList(items) == items;
  }
}
